=== FILE: README.md ===
# P2P rendezvous registry and peer session table, in Dafny

The system is a small peer-to-peer chat. It has two parts:

- **Rendezvous registry** (`stun-server/app.py`). Peers register their
  username, ip and port in a Redis hash named `p2p:peers`. The registry lists
  the peers seen in the last 300 seconds and deletes older records while it
  lists. It also answers single lookups and removes a peer on request.
- **Peer session manager** (`peer-client/client.py`, class `TCPManager`). A
  peer accepts inbound connections that open with a `USER:<name>` handshake.
  It dials other peers and sends them the same handshake. It keeps a table
  of active connections that each receive loop cleans up when it ends, and
  `stop` empties it. The client (`P2PClient`) leaves its own name out of the
  registry's peer list.

The model has four modules:

- `Options` (`options.dfy`) holds the `Option` datatype.
- `PyText` (`py_text.dfy`) holds the pieces of Python the core relies on:
  `str.isspace`, `str.strip`, `str.split` on one character, `in` between
  two strings, `str(int)` and `int(str)`.
- `StunServer` (`stun_server.dfy`) models the registry.
  - The hash is a class `PeerHash` with a map field, and each handler is a
    method on it.
  - A request body is a `Json` value: an object, a string, a list or a
    scalar. Each behaves under `not data`, `field in data` and
    `data[field]` as it does in Python.
  - Time is integer seconds, passed in as `now`.
  - Whether the store answers its ping is a `reachable` flag.
  - The order in which HGETALL enumerates the hash is a parameter `order`.
    It must list every key once.
  - The loop of `get_peers` is specified by the function `Survey`, and the
    lemmas about `Survey` state what the listing means.
- `PeerClient` (`peer_client.dfy`) models the session table.
  - `TCPManager` is a class holding the connection map, the running flag and
    the set of sockets it has closed. Sockets are opaque handles.
  - What the network does is passed in as parameters: the accepted socket,
    the first read, whether connecting and sending worked.

## Behaviour of the code worth noting

The model follows the code in each of these cases, even where another
behaviour might be expected:

- **An entry whose `last_seen` cannot be read.** Such an entry is not
  skipped. `get_peers` skips only values that are not JSON
  (stun-server/app.py:119-121). For any other value on which the `last_seen`
  lookup, its parse or the age computation raises (a missing key, a value
  that is not an object, a `last_seen` that is not a string or not ISO
  text, a timezone-aware timestamp subtracted from a naive one), the
  exception reaches the generic handler and gives a 500. By then the stale keys enumerated before it have already been
  deleted. `Stored.Unstamped` models this value, and
  `SurveyStopsAtUnstamped` states what happens.
- **Outbound session keys.** Outbound sessions are stored under `ip`
  (peer-client/client.py:121), not under the `ip:port` name their receive
  loop gets (peer-client/client.py:131). A loop's teardown therefore never
  removes its own outbound entry, which keeps a closed socket.
  `OutboundTeardownKeepsEntry` states this.
- **Rejected handshakes.** A connection whose first read does not start with
  `USER:` is neither entered nor closed. Only a read that raises closes the
  socket (peer-client/client.py:66-68). `TcpManager.Accept` states this.
- **Self-exclusion.** The registry has no parameter for leaving a user out
  of the listing. The client filters its own name out of the list
  (peer-client/client.py:237), which is `ExcludeSelf`.
- **Request bodies that are not objects.** A falsy body gives 400. A truthy
  number or boolean makes `field in data` raise, which gives 500. A truthy
  string or list lacking a field gives 400. One holding every field passes
  the `in` tests, and then `data['username']` raises, which gives 500.
  `RegisterPeer` and `UnregisterPeer` state this.
- **Handshake round trip.** Because the receiver strips the text it reads, a
  name comes back unchanged only when it has no `':'` and does not end in
  whitespace. `HandshakeCutsAtColon` and `HandshakeDropsTrailingSpace` show
  the two ways a name is shortened.

## Model

| member | source | states |
|---|---|---|
| PyText.Strip | peer-client/client.py:47 | `strip()` returns the infix of the text with only whitespace around it, and the result neither starts nor ends with whitespace |
| PyText.IsSpace | peer-client/client.py:47 | the whitespace `strip()` removes is never a digit, a sign or a ':', so stripping never eats into a handshake prefix or a number |
| PyText.StripUnpadded | peer-client/client.py:47 | text that neither starts nor ends with whitespace is left unchanged by `strip()` |
| PyText.StripTrailing | peer-client/client.py:47 | whitespace after unpadded text is removed by `strip()` |
| PyText.StripLeadingSpace | peer-client/client.py:47 | a whitespace character before unpadded text is removed by `strip()` |
| PyText.Occurs | stun-server/app.py:50 | `f in s` between two strings holds exactly when f sits in s at some offset, as a contiguous piece |
| PyText.Split | peer-client/client.py:49 | `split(":")` yields at least one piece, no piece contains the separator, and the first piece is the prefix up to the first separator |
| PyText.JoinSplit | peer-client/client.py:49 | joining the pieces of a split with the separator gives back the original text |
| PyText.SplitJoin | peer-client/client.py:49 | splitting a join of separator-free pieces gives back the pieces |
| PyText.SplitAtFirst | peer-client/client.py:49 | a separator-free head before the first separator becomes the first piece, and the rest is split on its own |
| PyText.SplitWithoutSeparator | peer-client/client.py:49 | text without the separator splits into itself alone |
| PyText.NatToDigits | peer-client/client.py:131 | `str()` of a non-negative port is a non-empty digit string with no leading zero |
| PyText.IntToDecimal | peer-client/client.py:131 | `str()` of an int starts with '-' exactly when it is negative and is otherwise made of decimal digits |
| PyText.DigitsRoundTrip | stun-server/app.py:70 | reading the decimal digits of n gives back n |
| PyText.ParseDigits | stun-server/app.py:70 | `int()` of a digit string is the number it denotes |
| PyText.ParseNegated | stun-server/app.py:70 | `int()` of '-' followed by digits is the negated number |
| PyText.ParseInt | stun-server/app.py:70 | `int()` succeeds only on text that holds none of the information separators U+001C..U+001F and strips to digits with at most one leading sign, and gives a negative number only after a '-'; ParseIntRoundTrip shows it inverts `str()` |
| PyText.ParseIntRefusesInfoSeparator | stun-server/app.py:70 | a leading FS is whitespace to `strip()` but makes `int()` fail (`int("\x1c5")` raises) |
| PyText.ParseLeadingSpace | stun-server/app.py:70 | `int()` skips a space before the digits (`int(" 5")` is 5) |
| PyText.ParseIntRoundTrip | stun-server/app.py:70 | `int(str(n)) == n` for every integer n |
| StunServer.PeerHash.Set | stun-server/app.py:75 | HSET stores the value under the field, replaces any earlier value and changes no other field |
| StunServer.PeerHash.Delete | stun-server/app.py:196 | HDEL removes the field and answers 1 exactly when it was present, else 0; other fields are unchanged |
| StunServer.Truthy | stun-server/app.py:42 | `not data` is false for a number, boolean or null exactly when its truth value is true, and for an object, string or list exactly when its length is not zero |
| StunServer.Contains | stun-server/app.py:50 | `field in data` is a key test on an object, a substring test on a string and an item test on a list; a body that passes the test for a non-empty field is truthy, so it cannot have been refused by `not data` |
| StunServer.FirstMissingField | stun-server/app.py:48-54 | on a number or boolean the first `in` test raises; otherwise no field is missing exactly when username, ip and port all pass the `in` test, and the answer is the first that fails, in that order |
| StunServer.Complete | stun-server/app.py:42-58 | the body register_peer goes on to store is exactly one that is truthy for `not data` (line 42), makes none of the `in` tests raise and passes all three (lines 49-54), and lets the reads `data[...]` succeed, which only an object does (lines 56-58) |
| StunServer.RegisterPeer | stun-server/app.py:38-91 | an absent or falsy body gives bad-request; a truthy number or boolean gives the 500 of the raising `in` test; a string, list or object failing a field's `in` test gives bad-request; a string or list passing all three gives the 500 of the raising `data['username']`; then an unreachable store gives store-unavailable; then a port `int()` rejects gives the 500; in all of these the hash is unchanged. Otherwise the record (username, ip, int(port), now, "online") is stored under the username, replacing any earlier one, no other key changes, and records stay stored under their own usernames |
| StunServer.SweepPeers | stun-server/app.py:108-121 | the loop collects exactly the live records `Survey` lists, deletes exactly the stale keys it finds, and aborts exactly when `Survey` does |
| StunServer.GetPeers | stun-server/app.py:94-134 | an unreachable store gives store-unavailable and no change. Otherwise the result is the sweep's live records with `count` equal to their number, or the 500 when an entry has no readable `last_seen`. The stale keys the sweep met are deleted, and no value changes. After a successful listing, a key remains exactly when it is not a stale record |
| StunServer.IsLive | stun-server/app.py:113 | a record is live when just written and stale once 300 seconds have passed since its last_seen |
| StunServer.Survey | stun-server/app.py:108-121 | the sweep never lists more records than it enumerates; SurveyLive shows it lists exactly the live records, SurveyStale that it deletes exactly the stale keys, SurveyConcat that it keeps enumeration order, and SurveyAbortsIffUnstamped that it fails exactly at an entry without a readable last_seen |
| StunServer.SurveyLive | stun-server/app.py:113-114 | every listed record is a live record of the snapshot, and a listing that did not abort holds every live record |
| StunServer.SurveyStale | stun-server/app.py:113-117 | every deleted key holds a stale record, and a listing that did not abort deletes every stale key; records that cannot be decoded are never deleted |
| StunServer.SurveyConcat | stun-server/app.py:108-114 | listing two enumerations one after the other gives the first part's records followed by the second's, so records keep enumeration order |
| StunServer.SurveyAbortsIffUnstamped | stun-server/app.py:110-113 | the listing fails exactly when some entry has no readable `last_seen` |
| StunServer.SurveyAbortSticks | stun-server/app.py:108-121 | once the loop has failed, later entries change nothing |
| StunServer.SurveyStopsAtUnstamped | stun-server/app.py:108-121 | at the first entry without a readable `last_seen` the listing fails, keeping the deletions of the stale keys enumerated before it and making none after it |
| StunServer.SurveyUniqueNames | stun-server/app.py:75 | because each record is stored under its own username, no username appears twice in a listing |
| StunServer.SurveyLeaves | stun-server/app.py:113-117 | after the stale keys are deleted, a key remains exactly when it is not a stale record, and records stay under their own usernames |
| StunServer.GetPeerInfo | stun-server/app.py:137-174 | a missing or empty username gives bad-request; then an unreachable store gives store-unavailable; an absent key gives not-found; a value that is not JSON gives the 500; otherwise the stored document is returned as is, with no liveness check and no change to the hash |
| StunServer.UnregisterPeer | stun-server/app.py:177-215 | an absent or falsy body, or one whose `in` test finds no username, gives bad-request; a truthy number or boolean, or a string or list holding 'username', gives the 500 of the raising test or lookup; an unreachable store gives store-unavailable; all of these leave the hash unchanged. Otherwise the key is removed, every other key is unchanged, and the answer is success exactly when the key existed, not-found otherwise |
| PeerClient.ParseHandshake | peer-client/client.py:47-49 | a handshake is accepted exactly when the stripped text starts with `USER:`; the name contains no ':' and is followed in the stripped text by its end or by ':' |
| PeerClient.HandshakeSplit | peer-client/client.py:49 | the second piece of text starting with `USER:` is the first piece of what follows the prefix |
| PeerClient.SecondPiece | peer-client/client.py:49 | the second piece of `head:name` followed by nothing or by ':' is name when head and name hold no ':' |
| PeerClient.HandshakeNameOf | peer-client/client.py:47-49 | text that strips to `USER:` + name, followed by nothing or by ':', is read as name |
| PeerClient.HandshakeRoundTrip | peer-client/client.py:119 | the handshake `USER:<me>` that connect_to_peer sends is read back as me, when me has no ':' and does not end in whitespace |
| PeerClient.HandshakeCutsAtColon | peer-client/client.py:49 | a name holding ':' is cut short at the ':' (`bob:x` is read as `bob`) |
| PeerClient.HandshakeDropsTrailingSpace | peer-client/client.py:47 | whitespace at the end of a name is lost (`bob ` is read as `bob`) |
| PeerClient.Hello | peer-client/client.py:119 | the handshake connect_to_peer sends; HandshakeRoundTrip proves the receiver reads the name back from it |
| PeerClient.LoopKey | peer-client/client.py:131 | the receive loop of an outbound session is named ip, then ':', then text without ':' (the port) |
| PeerClient.LoopKeyIsNeverInbound | peer-client/client.py:131 | the name of an outbound receive loop is never a name the accept path enters, so its teardown cannot remove an inbound session |
| PeerClient.LoopKeyIsNotOutboundKey | peer-client/client.py:121-131 | an outbound session's loop name `ip:port` differs from the key `ip` its entry is stored under |
| PeerClient.TcpManager.constructor | peer-client/client.py:12-17 | a new manager is running and has no connections |
| PeerClient.TcpManager.Accept | peer-client/client.py:44-68 | a read that raises closes the socket and enters nothing; otherwise the handshake is parsed; an accepted name is entered with this socket, replacing any earlier entry, and is the name its receive loop gets; a rejected one changes nothing |
| PeerClient.TcpManager.ConnectToPeer | peer-client/client.py:110-140 | when connecting fails nothing changes; otherwise `USER:<me>` is sent; when that went through, the session is entered under ip alone and its receive loop is named `ip:port` |
| PeerClient.TcpManager.ReceiveLoopExit | peer-client/client.py:101-108 | the socket is closed, and the loop's key is removed when present; no other key changes |
| PeerClient.TcpManager.Stop | peer-client/client.py:150-156 | running becomes false, every session's socket is closed and the table is empty |
| PeerClient.OutboundTeardownKeepsEntry | peer-client/client.py:121-131 | after an outbound session's receive loop ends, its socket is closed but its entry under ip is still in the table |
| PeerClient.InboundSessionLifecycle | peer-client/client.py:51-64 | an inbound session entered by its handshake is removed again, and nothing else is, when its receive loop ends |
| PeerClient.IsSelf | peer-client/client.py:237 | a record is the local user's only when the client has registered a name; before that no record is |
| PeerClient.ExcludeSelf | peer-client/client.py:237 | the filtered list is never longer than the registry's list |
| PeerClient.ExcludeSelfMembers | peer-client/client.py:237 | a peer is in the filtered list exactly when it is in the registry's list and is not the local user |
| PeerClient.ExcludeSelfConcat | peer-client/client.py:237 | the filter works element by element, so it keeps the order of the list |
| PeerClient.ExcludeSelfKeepsOthers | peer-client/client.py:237 | a list without the local user is returned unchanged |

## Left out

- Flask routing, `jsonify` and the HTTP status codes are not modelled. They
  become the `Outcome`/`Error` datatype.
- A request that is not JSON, or not sent as JSON, is taken as an absent
  body, which gives bad-request. What `request.get_json()` does with it
  depends on the Flask version, so that is not modelled.
- The field values of an object body are taken as text. Other JSON values
  there (a numeric port, say) are not modelled.
- The items of a list body that are not strings are only counted. They
  never pass a field's `in` test.
- PyText.ParseInt: CPython 3.11 and later refuse `int()` of more than 4300
  digits with ValueError, which would give the 500. This limit is not
  modelled: ParseInt reads digit strings of any length.
- PyText.IntToDecimal: the same CPython limit makes `str()` of a number with
  more than 4300 digits raise. This is not modelled.
- PyText.ParseIntRoundTrip: under that limit the round trip holds in CPython
  only for numbers of at most 4300 digits. The lemma states it for every
  integer.
- `get_redis` and its ping are not modelled. Each handler gets a
  `reachable` flag instead.
- Redis errors raised after a successful ping are not modelled.
- The whole-hash TTL `expire(p2p:peers, 3600)` is not modelled. It has no
  per-record meaning.
- The `/health` and `/` endpoints are not modelled.
- ISO-8601 timestamps become integer seconds, and the float
  `total_seconds()` becomes an integer difference.
- GetPeerInfo: a stored value that is the empty string gets a 404 in the
  code, because `not peer_data` holds for it. The model has only the decoded
  kinds of value, so this case gives the 500 for undecodable JSON instead.
- PyText.ParseInt accepts an optional sign and ASCII digits, with whitespace
  around them other than the ASCII information separators U+001C..U+001F,
  which `int()` does not skip although `str.isspace()` counts them. Python's `int()` also accepts underscores between digits and
  non-ASCII decimal digits; those are not modelled.
- Threads, `select`, timeouts, keep-alive and the accept loop's polling are
  not modelled. Each modelled operation is one step on the table, so
  concurrent access to `active_connections` is not captured.
- The registry's handlers run on Flask's request threads, but each is
  modelled as one atomic step on the hash. Interleavings are not captured:
  a peer that re-registers between `get_peers`' `hgetall`
  (stun-server/app.py:103) and its `hdel` (stun-server/app.py:116) loses its
  fresh record.
- Socket byte I/O (`recv(1024)` truncation, UTF-8 decoding, `send`) is not
  modelled. The first read reaches Accept already decoded, or as a failure.
- The body of `_receive_messages` (message printing) is not modelled. Only
  its `finally` block, `ReceiveLoopExit`, is.
- `send_message`, `start_tcp_server` and the listening socket are not
  modelled.
- `P2PClient`'s HTTP calls, `get_container_ip`, the interactive menu,
  `chat_with_peer`, the auto-registration retry loop and `main` are not
  modelled.

=== FILE: options.dfy ===
/** The optional value used throughout the model: a missing request body,
    a failed parse, an absent socket. */
module Options {

  datatype Option<T> = None | Some(value: T)
}

=== FILE: peer_client.dfy ===
/** The session bookkeeping of peer-client/client.py: the `USER:<name>`
    handshake, the table of active connections kept by TCPManager and the
    filter P2PClient applies to the registry's peer list. Sockets are opaque
    handles; what the network does (accept, recv, connect, send) arrives as
    parameters. */
module PeerClient {
  import opened Options
  import opened PyText
  import StunServer

  /** A socket, by identity. */
  type Handle = nat

  datatype Address = Address(host: string, port: int)

  /** One value of active_connections: the socket, the remote address and the
      time the session was entered. */
  datatype SessionInfo = SessionInfo(sock: Handle, address: Address, connectedAt: int)

  const HandshakePrefix: string := "USER:"

  /** The handshake connect_to_peer sends for the local user me. */
  function Hello(me: string): (h: string)
    ensures |h| == |HandshakePrefix| + |me|
    ensures h[..|HandshakePrefix|] == HandshakePrefix && h[|HandshakePrefix|..] == me
  {
    HandshakePrefix + me
  }

  /** The name _receive_messages is given for an outbound session to ip:port. */
  function LoopKey(ip: string, port: int): (key: string)
    ensures |key| > |ip| + 1 && key[..|ip|] == ip && key[|ip|] == ':'
    ensures forall k :: |ip| < k < |key| ==> key[k] != ':'
  {
    ip + ":" + IntToDecimal(port)
  }

  /** The accept path's reading of the first bytes of a connection: the
      stripped text must start with `USER:`; the name is then the piece
      between the first and the second ':' (split(":")[1]). */
  function ParseHandshake(data: string): (name: Option<string>)
    ensures name.Some? <==> HandshakePrefix <= Strip(data)
    ensures name.Some? ==> ':' !in name.value && HandshakePrefix + name.value <= Strip(data)
    ensures name.Some? ==> var t, n := Strip(data), |HandshakePrefix + name.value|;
                           n == |t| || t[n] == ':'
  {
    var text := Strip(data);
    if HandshakePrefix <= text then
      HandshakeSplit(text);
      assert text == HandshakePrefix + text[|HandshakePrefix|..];
      Some(Split(text, ':')[1])
    else
      None
  }

  /** The second piece of a text that starts with `USER:` is the first piece
      of what follows the prefix. */
  lemma HandshakeSplit(text: string)
    requires HandshakePrefix <= text
    ensures |Split(text, ':')| >= 2 && Split(text, ':')[1] == Split(text[|HandshakePrefix|..], ':')[0]
  {
    assert text == "USER" + [':'] + text[|HandshakePrefix|..];
    SplitAtFirst("USER", text[|HandshakePrefix|..], ':');
  }

  /** Splitting head:name followed by nothing or by a ':' gives name as the
      second piece, when neither head nor name holds a ':'. */
  lemma {:induction false} SecondPiece(head: string, name: string, rest: string)
    requires ':' !in head && ':' !in name
    requires rest != [] ==> rest[0] == ':'
    ensures |Split(head + [':'] + (name + rest), ':')| >= 2
    ensures Split(head + [':'] + (name + rest), ':')[1] == name
  {
    SplitAtFirst(head, name + rest, ':');
    if rest == [] {
      assert name + rest == name;
      SplitWithoutSeparator(name, ':');
    } else {
      assert name + rest == name + [':'] + rest[1..];
      SplitAtFirst(name, rest[1..], ':');
    }
  }

  /** Text that strips to `USER:` + name, followed by nothing or by a ':',
      yields name when name has no ':' of its own. */
  lemma HandshakeNameOf(data: string, name: string, rest: string)
    requires Strip(data) == HandshakePrefix + name + rest
    requires ':' !in name
    requires rest != [] ==> rest[0] == ':'
    ensures ParseHandshake(data) == Some(name)
  {
    assert HandshakePrefix + name + rest == "USER" + [':'] + (name + rest);
    SecondPiece("USER", name, rest);
  }

  /** A name without ':' that does not end in whitespace survives the trip
      through Hello and ParseHandshake. */
  lemma HandshakeRoundTrip(me: string)
    requires ':' !in me
    requires me != [] ==> !IsSpace(me[|me| - 1])
    ensures ParseHandshake(Hello(me)) == Some(me)
  {
    var hello := Hello(me);
    assert hello[0] == 'U';
    assert hello[|hello| - 1] == if me == [] then ':' else me[|me| - 1];
    StripUnpadded(hello);
    assert hello == HandshakePrefix + me + [];
    HandshakeNameOf(hello, me, []);
  }

  /** A ':' in a name cuts it short. */
  lemma HandshakeCutsAtColon()
    ensures ParseHandshake(Hello("bob:x")) == Some("bob")
  {
    var hello := Hello("bob:x");
    assert hello[0] == 'U' && hello[|hello| - 1] == 'x';
    StripUnpadded(hello);
    assert hello == HandshakePrefix + "bob" + ":x";
    HandshakeNameOf(hello, "bob", ":x");
  }

  /** Whitespace at the end of a name is stripped away. */
  lemma HandshakeDropsTrailingSpace()
    ensures ParseHandshake(Hello("bob ")) == Some("bob")
  {
    var sent := HandshakePrefix + "bob";
    assert sent[0] == 'U' && sent[|sent| - 1] == 'b';
    StripTrailing(sent, " ");
    assert Hello("bob ") == sent + " ";
    assert sent == HandshakePrefix + "bob" + [];
    HandshakeNameOf(sent + " ", "bob", []);
  }

  /** An outbound session's loop name always holds a ':' and so can never be a
      name the accept path enters: tearing down an outbound loop never removes
      an inbound session. */
  lemma LoopKeyIsNeverInbound(data: string, ip: string, port: int)
    ensures ParseHandshake(data) != Some(LoopKey(ip, port))
  {
  }

  /** The loop name of an outbound session differs from the key its entry is
      stored under. */
  lemma LoopKeyIsNotOutboundKey(ip: string, port: int)
    ensures LoopKey(ip, port) != ip
  {
  }

  /** The sockets of the sessions in a table. */
  function Sockets(table: map<string, SessionInfo>): set<Handle>
  {
    set k | k in table :: table[k].sock
  }

  /** TCPManager: the table of active connections and the running flag. */
  class TcpManager {
    var connections: map<string, SessionInfo>
    var running: bool
    /** the sockets this manager has closed */
    var closed: set<Handle>

    constructor ()
      ensures connections == map[] && running && closed == {}
    {
      connections := map[];
      running := true;
      closed := {};
    }

    /** One pass of _accept_connections once accept() has returned sock from
        peer at time now. received is the decoded first read, None when recv
        or decoding raised. The result is the name the session's receive loop
        is started with. */
    method Accept(sock: Handle, peer: Address, received: Option<string>, now: int) returns (loopKey: Option<string>)
      modifies this
      ensures loopKey == if received.Some? then ParseHandshake(received.value) else None
      ensures connections == if loopKey.Some? then old(connections)[loopKey.value := SessionInfo(sock, peer, now)]
                             else old(connections)
      ensures closed == if received.None? then old(closed) + {sock} else old(closed)
      ensures running == old(running)
    {
      if received.None? {
        closed := closed + {sock};
        return None;
      }
      var name := ParseHandshake(received.value);
      if name.Some? {
        connections := connections[name.value := SessionInfo(sock, peer, now)];
      }
      return name;
    }

    /** connect_to_peer(ip, port, me). dialed is the socket connect() gave,
        None when connecting failed; handshakeSent says whether enabling
        keep-alive and sending the handshake went through. */
    method ConnectToPeer(ip: string, port: int, me: string, dialed: Option<Handle>, handshakeSent: bool, now: int)
      returns (sock: Option<Handle>, handshake: Option<string>, loopKey: Option<string>)
      modifies this
      ensures handshake == if dialed.Some? then Some(Hello(me)) else None
      ensures sock == if dialed.Some? && handshakeSent then dialed else None
      ensures sock.Some? ==> loopKey == Some(LoopKey(ip, port))
                             && connections == old(connections)[ip := SessionInfo(sock.value, Address(ip, port), now)]
      ensures sock.None? ==> loopKey.None? && connections == old(connections)
      ensures closed == old(closed) && running == old(running)
    {
      if dialed.None? {
        return None, None, None;
      }
      handshake := Some(Hello(me));
      if !handshakeSent {
        return None, handshake, None;
      }
      connections := connections[ip := SessionInfo(dialed.value, Address(ip, port), now)];
      return dialed, handshake, Some(LoopKey(ip, port));
    }

    /** The finally block of _receive_messages(sock, key): close the socket and
        drop the entry under key if there is one. */
    method ReceiveLoopExit(sock: Handle, key: string)
      modifies this
      ensures connections == old(connections) - {key}
      // the absent-key case of the line above, stated on its own on purpose:
      // a loop whose key is not in the table leaves it untouched
      ensures key !in old(connections) ==> connections == old(connections)
      ensures closed == old(closed) + {sock}
      ensures running == old(running)
    {
      closed := closed + {sock};
      if key in connections {
        connections := connections - {key};
      }
    }

    /** stop(): lower the running flag, close every session's socket and empty
        the table. */
    method Stop()
      modifies this
      ensures !running && connections == map[]
      ensures closed == old(closed) + Sockets(old(connections))
    {
      running := false;
      var pending := connections.Keys;
      while pending != {}
        invariant pending <= connections.Keys
        invariant connections == old(connections) && !running
        invariant closed == old(closed) + (set k | k in connections && k !in pending :: connections[k].sock)
        decreases pending
      {
        var k :| k in pending;
        closed := closed + {connections[k].sock};
        pending := pending - {k};
      }
      connections := map[];
    }
  }

  /** An outbound session is stored under ip but its receive loop is named
      ip:port, so when that loop ends the entry stays, holding a socket that
      has been closed. */
  method OutboundTeardownKeepsEntry(m: TcpManager, ip: string, port: int, me: string, h: Handle, now: int)
    modifies m
    ensures ip in m.connections && m.connections[ip] == SessionInfo(h, Address(ip, port), now)
    ensures h in m.closed
  {
    var sock, handshake, loopKey := m.ConnectToPeer(ip, port, me, Some(h), true, now);
    LoopKeyIsNotOutboundKey(ip, port);
    m.ReceiveLoopExit(sock.value, loopKey.value);
  }

  /** An inbound session entered by its handshake is removed again, and nothing
      else is, when its receive loop ends. */
  method InboundSessionLifecycle(m: TcpManager, name: string, h: Handle, peer: Address, now: int)
    requires ':' !in name && (name != [] ==> !IsSpace(name[|name| - 1]))
    modifies m
    ensures m.connections == old(m.connections) - {name}
    ensures h in m.closed
  {
    HandshakeRoundTrip(name);
    var before := m.connections;
    var loopKey := m.Accept(h, peer, Some(Hello(name)), now);
    assert loopKey == Some(name);
    assert m.connections == before[name := SessionInfo(h, peer, now)];
    m.ReceiveLoopExit(h, name);
    assert m.connections == before[name := SessionInfo(h, peer, now)] - {name};
  }

  /** The record is the local user's; before registering there is no local
      user, and no record is. */
  predicate IsSelf(p: StunServer.PeerRecord, me: Option<string>)
    ensures me.None? ==> !IsSelf(p, me)
  {
    me.Some? && p.username == me.value
  }

  /** P2PClient.get_peers' filter: the peers other than the local user. */
  function ExcludeSelf(peers: seq<StunServer.PeerRecord>, me: Option<string>): (others: seq<StunServer.PeerRecord>)
    ensures |others| <= |peers|
  {
    if peers == [] then []
    else (if IsSelf(peers[0], me) then [] else [peers[0]]) + ExcludeSelf(peers[1..], me)
  }

  /** A peer is in the filtered list exactly when it is in the registry's
      list and is not the local user. */
  lemma {:induction false} ExcludeSelfMembers(peers: seq<StunServer.PeerRecord>, me: Option<string>, p: StunServer.PeerRecord)
    ensures p in ExcludeSelf(peers, me) <==> p in peers && !IsSelf(p, me)
    decreases |peers|
  {
    if peers != [] {
      ExcludeSelfMembers(peers[1..], me, p);
      assert peers == [peers[0]] + peers[1..];
    }
  }

  /** The filter works element by element, so it keeps the order of the list. */
  lemma {:induction false} ExcludeSelfConcat(a: seq<StunServer.PeerRecord>, b: seq<StunServer.PeerRecord>, me: Option<string>)
    ensures ExcludeSelf(a + b, me) == ExcludeSelf(a, me) + ExcludeSelf(b, me)
    decreases |a|
  {
    if a != [] {
      assert (a + b)[0] == a[0];
      assert (a + b)[1..] == a[1..] + b;
      ExcludeSelfConcat(a[1..], b, me);
    } else {
      assert a + b == b;
    }
  }

  /** A list in which the local user does not appear is returned unchanged. */
  lemma {:induction false} ExcludeSelfKeepsOthers(peers: seq<StunServer.PeerRecord>, me: Option<string>)
    requires forall i :: 0 <= i < |peers| ==> !IsSelf(peers[i], me)
    ensures ExcludeSelf(peers, me) == peers
    decreases |peers|
  {
    if peers != [] {
      ExcludeSelfKeepsOthers(peers[1..], me);
      assert [peers[0]] + peers[1..] == peers;
    }
  }
}

=== FILE: py_text.dfy ===
/** The pieces of Python's string and integer semantics that the registry and the
    peer client depend on: str.isspace, str.strip, str.split with a one-character
    separator, str(int) and int(str). Strings are sequences of code points. */
module PyText {
  import opened Options

  /** Python's str.isspace() for one character: the ASCII controls TAB..CR and
      FS..US, the space, NEL, NBSP and the Unicode space separators. */
  predicate IsSpace(c: char)
    ensures IsSpace(c) ==> !IsDigit(c) && c != ':' && c != '-' && c != '+'
  {
    || ('\t' <= c <= '\r')
    || ('\U{1C}' <= c <= ' ')
    || c == '\U{85}' || c == '\U{A0}' || c == '\U{1680}'
    || ('\U{2000}' <= c <= '\U{200A}')
    || c == '\U{2028}' || c == '\U{2029}' || c == '\U{202F}' || c == '\U{205F}'
    || c == '\U{3000}'
  }

  /** The length of the longest all-whitespace prefix of s. */
  function LeadingSpaces(s: string): (n: nat)
    ensures n <= |s|
    ensures forall k :: 0 <= k < n ==> IsSpace(s[k])
    ensures n < |s| ==> !IsSpace(s[n])
  {
    if s == [] || !IsSpace(s[0]) then 0 else 1 + LeadingSpaces(s[1..])
  }

  /** The length of the longest all-whitespace suffix of s. */
  function TrailingSpaces(s: string): (n: nat)
    ensures n <= |s|
    ensures forall k :: |s| - n <= k < |s| ==> IsSpace(s[k])
    ensures n < |s| ==> !IsSpace(s[|s| - 1 - n])
  {
    if s == [] || !IsSpace(s[|s| - 1]) then 0 else 1 + TrailingSpaces(s[..|s| - 1])
  }

  /** t sits in s at offset i with nothing but whitespace around it. */
  ghost predicate PaddedAt(s: string, i: int, t: string)
  {
    && 0 <= i <= |s| - |t| && t == s[i..i + |t|]
    && (forall k :: 0 <= k < i ==> IsSpace(s[k]))
    && (forall k :: i + |t| <= k < |s| ==> IsSpace(s[k]))
  }

  /** s.strip(): the infix of s left once all leading and trailing whitespace is
      removed; it is empty exactly when s is all whitespace. */
  function Strip(s: string): (t: string)
    ensures exists i :: PaddedAt(s, i, t)
    ensures t != [] ==> !IsSpace(t[0]) && !IsSpace(t[|t| - 1])
  {
    var i := LeadingSpaces(s);
    var u := s[i..];
    var n := TrailingSpaces(u);
    assert PaddedAt(s, i, u[..|u| - n]);
    u[..|u| - n]
  }

  /** Text that already starts and ends with non-whitespace is left alone by strip(). */
  lemma StripUnpadded(s: string)
    requires s != [] ==> !IsSpace(s[0]) && !IsSpace(s[|s| - 1])
    ensures Strip(s) == s
  {
  }

  /** Whitespace after unpadded text is removed by strip(). */
  lemma StripTrailing(s: string, w: string)
    requires s != [] && !IsSpace(s[0]) && !IsSpace(s[|s| - 1])
    requires forall k :: 0 <= k < |w| ==> IsSpace(w[k])
    ensures Strip(s + w) == s
  {
    var x := s + w;
    var t := Strip(x);
    var i :| PaddedAt(x, i, t);
    assert x[0] == s[0] && x[|s| - 1] == s[|s| - 1];
    assert forall k :: |s| <= k < |x| ==> IsSpace(x[k]);
    if t == [] {
      assert false;
    }
    assert i == 0;
    if |t| < |s| {
      assert false;
    }
    if |t| > |s| {
      assert false;
    }
    assert t == x[..|s|] == s;
  }

  /** A whitespace character before unpadded text is removed by strip(). */
  lemma StripLeadingSpace(c: char, s: string)
    requires IsSpace(c)
    requires s != [] && !IsSpace(s[0]) && !IsSpace(s[|s| - 1])
    ensures Strip([c] + s) == s
  {
    var x := [c] + s;
    var t := Strip(x);
    var i :| PaddedAt(x, i, t);
    assert x[1] == s[0] && x[|x| - 1] == s[|s| - 1];
    if t == [] || i != 1 || |t| != |s| {
      assert false;
    }
    assert t == x[1..] == s;
  }

  /** s.split(sep): the pieces of s between occurrences of sep, none of which
      contains sep; the first piece is the prefix of s up to the first sep. */
  function Split(s: string, sep: char): (parts: seq<string>)
    ensures |parts| >= 1
    ensures forall i :: 0 <= i < |parts| ==> sep !in parts[i]
    ensures parts[0] <= s
    ensures |parts[0]| < |s| ==> s[|parts[0]|] == sep
    decreases |s|
  {
    if s == [] then [""]
    else
      var rest := Split(s[1..], sep);
      if s[0] == sep then [""] + rest
      else [[s[0]] + rest[0]] + rest[1..]
  }

  /** [sep].join(parts), the inverse of Split. */
  function Join(parts: seq<string>, sep: char): string
    requires |parts| >= 1
    decreases |parts|
  {
    if |parts| == 1 then parts[0] else parts[0] + [sep] + Join(parts[1..], sep)
  }

  /** Joining the pieces of a split gives back the text. */
  lemma {:induction false} JoinSplit(s: string, sep: char)
    ensures Join(Split(s, sep), sep) == s
    decreases |s|
  {
    if s != [] {
      var rest := Split(s[1..], sep);
      JoinSplit(s[1..], sep);
      if s[0] == sep {
        assert Split(s, sep) == [""] + rest;
        assert ([""] + rest)[1..] == rest;
      } else {
        var parts := [[s[0]] + rest[0]] + rest[1..];
        assert Split(s, sep) == parts;
        if |rest| == 1 {
          assert Join(rest, sep) == rest[0];
        } else {
          assert parts[1..] == rest[1..];
          assert Join(rest, sep) == rest[0] + [sep] + Join(rest[1..], sep);
        }
      }
    }
  }

  /** Text without the separator splits into itself alone. */
  lemma {:induction false} SplitWithoutSeparator(a: string, sep: char)
    requires sep !in a
    ensures Split(a, sep) == [a]
    decreases |a|
  {
    if a != [] {
      SplitWithoutSeparator(a[1..], sep);
      assert [a[0]] + a[1..] == a;
    }
  }

  /** A separator-free head is split off as the first piece. */
  lemma {:induction false} SplitAtFirst(a: string, b: string, sep: char)
    requires sep !in a
    ensures Split(a + [sep] + b, sep) == [a] + Split(b, sep)
    decreases |a|
  {
    var s := a + [sep] + b;
    if a == [] {
      assert s[1..] == b;
    } else {
      assert s[1..] == a[1..] + [sep] + b;
      SplitAtFirst(a[1..], b, sep);
      assert [a[0]] + a[1..] == a;
    }
  }

  /** Splitting a join of separator-free pieces gives back the pieces. */
  lemma {:induction false} SplitJoin(parts: seq<string>, sep: char)
    requires |parts| >= 1
    requires forall i :: 0 <= i < |parts| ==> sep !in parts[i]
    ensures Split(Join(parts, sep), sep) == parts
    decreases |parts|
  {
    if |parts| == 1 {
      SplitWithoutSeparator(parts[0], sep);
    } else {
      SplitJoin(parts[1..], sep);
      SplitAtFirst(parts[0], Join(parts[1..], sep), sep);
      assert [parts[0]] + parts[1..] == parts;
    }
  }

  /** f sits in s at offset i. */
  predicate InfixAt(f: string, s: string, i: int)
  {
    0 <= i <= |s| - |f| && s[i..i + |f|] == f
  }

  /** f in s, for two strings: f occurs in s as a contiguous piece. */
  predicate Occurs(f: string, s: string)
    ensures Occurs(f, s) <==> exists i :: InfixAt(f, s, i)
    decreases |s|
  {
    if f <= s then assert InfixAt(f, s, 0); true
    else if s == [] then false
    else
      assert forall i :: InfixAt(f, s, i) ==> i >= 1 && InfixAt(f, s[1..], i - 1);
      assert forall i :: InfixAt(f, s[1..], i) ==> InfixAt(f, s, i + 1);
      Occurs(f, s[1..])
  }

  predicate IsDigit(c: char)
  {
    '0' <= c <= '9'
  }

  predicate AllDigits(s: string)
  {
    forall k :: 0 <= k < |s| ==> IsDigit(s[k])
  }

  function DigitChar(d: nat): (c: char)
    requires d < 10
    ensures IsDigit(c) && (c as int) - ('0' as int) == d
  {
    ('0' as int + d) as char
  }

  /** The decimal digits of n, most significant first, without leading zeros. */
  function NatToDigits(n: nat): (s: string)
    ensures s != [] && AllDigits(s)
    ensures |s| > 1 ==> s[0] != '0'
  {
    if n < 10 then [DigitChar(n)] else NatToDigits(n / 10) + [DigitChar(n % 10)]
  }

  /** The number a string of decimal digits denotes. */
  function DigitsValue(s: string): nat
    requires AllDigits(s)
  {
    if s == [] then 0 else DigitsValue(s[..|s| - 1]) * 10 + ((s[|s| - 1] as int) - ('0' as int))
  }

  /** str(n) for a Python int: a minus sign exactly for negative n, then
      decimal digits. */
  function IntToDecimal(n: int): (s: string)
    ensures s != [] && (s[0] == '-' <==> n < 0)
    ensures forall k :: (if n < 0 then 1 else 0) <= k < |s| ==> IsDigit(s[k])
  {
    if n < 0 then "-" + NatToDigits(-n) else NatToDigits(n)
  }

  /** The ASCII information separators FS, GS, RS and US. str.isspace() counts
      them as whitespace, but int() skips only ASCII whitespace among the
      characters below 128, so one of them anywhere in the text makes it fail. */
  predicate IsInfoSeparator(c: char)
    ensures IsInfoSeparator(c) ==> IsSpace(c)
  {
    '\U{1C}' <= c <= '\U{1F}'
  }

  /** int(text) for a string: surrounding whitespace other than the information
      separators, an optional sign and at least one decimal digit; anything else
      raises, modelled as None. */
  function ParseInt(text: string): (r: Option<int>)
    ensures r.Some? ==> forall k :: 0 <= k < |text| ==> !IsInfoSeparator(text[k])
    ensures r.Some? ==> var t := Strip(text);
      && t != [] && (IsDigit(t[0]) || t[0] == '-' || t[0] == '+')
      && (forall k :: 0 < k < |t| ==> IsDigit(t[k]))
      && (r.value < 0 ==> t[0] == '-')
  {
    var t := Strip(text);
    if exists k :: 0 <= k < |text| && IsInfoSeparator(text[k]) then
      None
    else if |t| >= 2 && (t[0] == '-' || t[0] == '+') && AllDigits(t[1..]) then
      Some(if t[0] == '-' then -(DigitsValue(t[1..]) as int) else DigitsValue(t[1..]))
    else if t != [] && AllDigits(t) then
      Some(DigitsValue(t))
    else
      None
  }

  lemma {:induction false} DigitsRoundTrip(n: nat)
    ensures DigitsValue(NatToDigits(n)) == n
  {
    if n >= 10 {
      var s := NatToDigits(n);
      assert s[..|s| - 1] == NatToDigits(n / 10);
      DigitsRoundTrip(n / 10);
    }
  }

  /** int() reads a string of digits as the number it denotes. */
  lemma ParseDigits(d: string)
    requires d != [] && AllDigits(d)
    ensures ParseInt(d) == Some(DigitsValue(d))
  {
    assert !IsSpace(d[0]) && !IsSpace(d[|d| - 1]);
    StripUnpadded(d);
    assert !IsDigit('-') && !IsDigit('+');
  }

  /** int() reads '-' and a string of digits as the negated number. */
  lemma ParseNegated(d: string)
    requires d != [] && AllDigits(d)
    ensures ParseInt("-" + d) == Some(-(DigitsValue(d) as int))
  {
    var s := "-" + d;
    assert s[0] == '-' && s[|s| - 1] == d[|d| - 1];
    StripUnpadded(s);
    assert s[1..] == d;
  }

  /** strip() removes a leading FS, but int() refuses the text: int("\x1c5")
      raises, where ParseLeadingSpace shows that int(" 5") gives 5. */
  lemma ParseIntRefusesInfoSeparator(d: string)
    requires d != [] && AllDigits(d)
    ensures Strip("\U{1C}" + d) == d
    ensures ParseInt("\U{1C}" + d) == None
  {
    var s := "\U{1C}" + d;
    assert IsInfoSeparator(s[0]);
    StripLeadingSpace('\U{1C}', d);
  }

  /** int() skips a space before the digits. */
  lemma ParseLeadingSpace(d: string)
    requires d != [] && AllDigits(d)
    ensures ParseInt(" " + d) == Some(DigitsValue(d))
  {
    var u := " " + d;
    StripLeadingSpace(' ', d);
    assert forall k :: 0 <= k < |u| ==> !IsInfoSeparator(u[k]);
    assert !IsDigit('-') && !IsDigit('+');
  }

  /** int(str(n)) == n. */
  lemma ParseIntRoundTrip(n: int)
    ensures ParseInt(IntToDecimal(n)) == Some(n)
  {
    if n < 0 {
      ParseNegated(NatToDigits(-n));
      DigitsRoundTrip(-n);
    } else {
      ParseDigits(NatToDigits(n));
      DigitsRoundTrip(n);
    }
  }
}

=== FILE: stun_server.dfy ===
/** The rendezvous registry of stun-server/app.py: the Redis hash `p2p:peers`
    and the four request handlers that read and change it. Time is integer
    seconds, whether the store answers its ping is a parameter of each handler,
    and the order in which HGETALL enumerates the hash is a parameter of the
    listing handler. */
module StunServer {
  import opened Options
  import opened PyText

  /** A record is live while it is younger than this many seconds. */
  const LivenessWindow: int := 300

  /** The status every successful registration writes. */
  const Online: string := "online"

  /** The fields a registration body must carry, in the order they are checked. */
  const RequiredFields: seq<string> := ["username", "ip", "port"]

  /** The JSON document register_peer stores per user. */
  datatype PeerRecord = PeerRecord(username: string, ip: string, port: int, lastSeen: int, status: string)

  /** A value of the hash as the handlers see it once json.loads (and, when
      listing, fromisoformat on last_seen) has run on it. */
  datatype Stored =
    | Record(peer: PeerRecord)
      /** decodes as JSON, but the last_seen lookup, its parse or the age
          computation raises */
    | Unstamped
      /** json.loads raises JSONDecodeError */
    | Undecodable

  /** The error responses: 400, the 500 for a failed ping, 404, and the 500 of
      the generic exception handler. */
  datatype Error = BadRequest | StoreUnavailable | NotFound | InternalError

  datatype Outcome<T> = Success(value: T) | Failure(error: Error)

  /** The body of a successful GET /peers. */
  datatype PeerList = PeerList(count: int, peers: seq<PeerRecord>)

  /** A JSON request body as request.get_json() returns it: an object, whose
      field values are given by their text; a string; a list, given by its
      string items and the number of its other items; or a number, boolean
      or null, given by its truth value. */
  datatype Json =
    | Object(fields: map<string, string>)
    | Text(text: string)
    | Array(strings: seq<string>, others: nat)
    | Scalar(truthy: bool)

  /** len(data) for a body that has a length: the number of keys, characters
      or items. */
  function Len(j: Json): nat
    requires !j.Scalar?
  {
    match j
    case Object(fields) => |fields|
    case Text(text) => |text|
    case Array(strings, others) => |strings| + others
  }

  /** Python's truth value of the body, as `not data` tests it: a container is
      true exactly when its length is not zero. */
  predicate Truthy(j: Json)
    ensures j.Scalar? ==> (Truthy(j) <==> j.truthy)
    ensures !j.Scalar? ==> (Truthy(j) <==> Len(j) > 0)
  {
    match j
    case Object(fields) => fields != map[]
    case Text(text) => text != ""
    case Array(strings, others) => |strings| + others > 0
    case Scalar(truthy) => truthy
  }

  /** Python's `f in data` on a body that supports it; on a number, boolean or
      null the test raises TypeError instead. */
  predicate Contains(j: Json, f: string)
    requires !j.Scalar?
    ensures j.Text? ==> (Contains(j, f) <==> exists i :: InfixAt(f, j.text, i))
    ensures f != "" && Contains(j, f) ==> Truthy(j)
  {
    match j
    case Object(fields) => f in fields
    case Text(text) => Occurs(f, text)
    case Array(strings, _) => f in strings
  }

  /** A record is live when it was just written and stale once the window
      has passed. */
  predicate IsLive(p: PeerRecord, now: int)
    ensures now <= p.lastSeen ==> IsLive(p, now)
    ensures now >= p.lastSeen + LivenessWindow ==> !IsLive(p, now)
  {
    now - p.lastSeen < LivenessWindow
  }

  /** Key k holds a record that get_peers would find stale at time now. */
  predicate StaleKey(vals: map<string, Stored>, k: string, now: int)
  {
    k in vals && vals[k].Record? && !IsLive(vals[k].peer, now)
  }

  /** Every record is stored under its own username. */
  ghost predicate Consistent(entries: map<string, Stored>)
  {
    forall k :: k in entries && entries[k].Record? ==> entries[k].peer.username == k
  }

  predicate Distinct(keys: seq<string>)
  {
    forall i, j :: 0 <= i < j < |keys| ==> keys[i] != keys[j]
  }

  predicate Covers(keys: seq<string>, vals: map<string, Stored>)
  {
    forall i :: 0 <= i < |keys| ==> keys[i] in vals
  }

  /** order lists every key of the hash exactly once, as HGETALL's dict does. */
  predicate Enumerates(order: seq<string>, entries: map<string, Stored>)
  {
    Distinct(order) && (forall k :: k in order ==> k in entries) && (forall k :: k in entries ==> k in order)
  }

  /** The Redis hash `p2p:peers`. */
  class PeerHash {
    var entries: map<string, Stored>

    constructor ()
      ensures entries == map[]
    {
      entries := map[];
    }

    /** HSET: store value under field, replacing whatever was there. */
    method Set(field: string, value: Stored)
      modifies this
      ensures entries == old(entries)[field := value]
    {
      entries := entries[field := value];
    }

    /** HDEL: remove field; the reply counts the fields removed. */
    method Delete(field: string) returns (removed: nat)
      modifies this
      ensures removed == if field in old(entries) then 1 else 0
      ensures entries == old(entries) - {field}
    {
      removed := if field in entries then 1 else 0;
      entries := entries - {field};
    }
  }

  /** The `for field in required_fields` check of register_peer on a truthy
      body: raised when the first `in` test raises, and otherwise the first
      required field the body lacks, if any. */
  method FirstMissingField(body: Json) returns (raised: bool, missing: Option<string>)
    ensures raised <==> body.Scalar?
    ensures !raised ==>
      (missing.None? <==> forall i :: 0 <= i < |RequiredFields| ==> Contains(body, RequiredFields[i]))
    ensures !raised && missing.Some? ==>
      exists i :: 0 <= i < |RequiredFields| && RequiredFields[i] == missing.value && !Contains(body, missing.value)
                  && forall j :: 0 <= j < i ==> Contains(body, RequiredFields[j])
  {
    if body.Scalar? {
      return true, None;
    }
    for i := 0 to |RequiredFields|
      invariant forall j :: 0 <= j < i ==> Contains(body, RequiredFields[j])
    {
      if !Contains(body, RequiredFields[i]) {
        return false, Some(RequiredFields[i]);
      }
    }
    return false, None;
  }

  /** The body is an object carrying every required field: the only body
      register_peer reads the fields of. It is exactly a body that passes
      `not data`, then every `in` test without raising, then the reads of
      `data[...]`. */
  predicate Complete(body: Option<Json>)
    ensures Complete(body) <==>
      && body.Some? && Truthy(body.value) && !body.value.Scalar?
      && (forall i :: 0 <= i < |RequiredFields| ==> Contains(body.value, RequiredFields[i]))
      && body.value.Object?
  {
    assert |RequiredFields| == 3 && RequiredFields[0] == "username" && RequiredFields[1] == "ip"
        && RequiredFields[2] == "port";
    assert body.Some? && body.value.Object? && "username" in body.value.fields ==> body.value.fields != map[];
    && body.Some? && body.value.Object?
    && "username" in body.value.fields && "ip" in body.value.fields && "port" in body.value.fields
  }

  /** POST /register. */
  method RegisterPeer(store: PeerHash, body: Option<Json>, reachable: bool, now: int)
    returns (r: Outcome<PeerRecord>)
    modifies store
    ensures body.None? || !Truthy(body.value) ==> r == Failure(BadRequest)
    ensures body.Some? && Truthy(body.value) && body.value.Scalar? ==> r == Failure(InternalError)
    ensures body.Some? && Truthy(body.value) && !body.value.Scalar? ==>
      var data := body.value;
      && (!(Contains(data, "username") && Contains(data, "ip") && Contains(data, "port")) ==> r == Failure(BadRequest))
      && (Contains(data, "username") && Contains(data, "ip") && Contains(data, "port") && !data.Object? ==>
            r == Failure(InternalError))
    ensures Complete(body) && !reachable ==> r == Failure(StoreUnavailable)
    ensures Complete(body) && reachable ==>
      var data := body.value.fields;
      var port := ParseInt(data["port"]);
      r == if port.None? then Failure(InternalError)
           else Success(PeerRecord(data["username"], data["ip"], port.value, now, Online))
    ensures store.entries == if r.Success? then old(store.entries)[r.value.username := Record(r.value)]
                             else old(store.entries)
    ensures Consistent(old(store.entries)) ==> Consistent(store.entries)
  {
    if body.None? || !Truthy(body.value) {
      return Failure(BadRequest);
    }
    var raised, missing := FirstMissingField(body.value);
    if raised {
      return Failure(InternalError);
    }
    if missing.Some? {
      var i :| 0 <= i < |RequiredFields| && RequiredFields[i] == missing.value && !Contains(body.value, missing.value);
      return Failure(BadRequest);
    }
    assert Contains(body.value, RequiredFields[0]) && Contains(body.value, RequiredFields[1])
        && Contains(body.value, RequiredFields[2]);
    if !body.value.Object? {
      // data['username'] on a string or a list raises TypeError
      return Failure(InternalError);
    }
    var data := body.value.fields;
    var username, ip, portText := data["username"], data["ip"], data["port"];
    if !reachable {
      return Failure(StoreUnavailable);
    }
    var port := ParseInt(portText);
    if port.None? {
      return Failure(InternalError);
    }
    var peer := PeerRecord(username, ip, port.value, now, Online);
    store.Set(username, Record(peer));
    return Success(peer);
  }

  /** What the loop of get_peers does with the HGETALL snapshot vals taken in
      the order keys: the live records collected, the stale keys deleted, and
      whether a record without a readable last_seen aborted the loop. */
  datatype Sweep = Sweep(live: seq<PeerRecord>, stale: set<string>, aborted: bool)

  function Survey(keys: seq<string>, vals: map<string, Stored>, now: int): (s: Sweep)
    requires Covers(keys, vals)
    ensures |s.live| <= |keys|
    decreases |keys|
  {
    if keys == [] then Sweep([], {}, false)
    else
      var prior := Survey(keys[..|keys| - 1], vals, now);
      var key := keys[|keys| - 1];
      if prior.aborted then prior
      else match vals[key]
        case Undecodable => prior
        case Unstamped => prior.(aborted := true)
        case Record(p) =>
          if IsLive(p, now) then prior.(live := prior.live + [p])
          else prior.(stale := prior.stale + {key})
  }

  /** Once the loop has aborted, the entries after that point change nothing. */
  lemma {:induction false} SurveyAbortSticks(keys: seq<string>, vals: map<string, Stored>, now: int, i: nat)
    requires Covers(keys, vals) && i <= |keys|
    requires Survey(keys[..i], vals, now).aborted
    ensures Survey(keys, vals, now) == Survey(keys[..i], vals, now)
    decreases |keys|
  {
    if |keys| > i {
      var init := keys[..|keys| - 1];
      assert init[..i] == keys[..i];
      SurveyAbortSticks(init, vals, now, i);
    } else {
      assert keys[..i] == keys;
    }
  }

  /** The listing fails exactly when some entry has no readable last_seen. */
  lemma {:induction false} SurveyAbortsIffUnstamped(keys: seq<string>, vals: map<string, Stored>, now: int)
    requires Covers(keys, vals)
    ensures Survey(keys, vals, now).aborted <==> exists i :: 0 <= i < |keys| && vals[keys[i]] == Unstamped
    decreases |keys|
  {
    if keys != [] {
      var init := keys[..|keys| - 1];
      SurveyAbortsIffUnstamped(init, vals, now);
      if exists i :: 0 <= i < |init| && vals[init[i]] == Unstamped {
        var i :| 0 <= i < |init| && vals[init[i]] == Unstamped;
        assert keys[i] == init[i];
      }
      if exists i :: 0 <= i < |keys| && vals[keys[i]] == Unstamped {
        var i :| 0 <= i < |keys| && vals[keys[i]] == Unstamped;
        if i < |init| {
          assert init[i] == keys[i];
        }
      }
    }
  }

  /** The listing holds only live records of the snapshot, and, unless it
      aborted, every one of them. */
  lemma {:induction false} SurveyLive(keys: seq<string>, vals: map<string, Stored>, now: int)
    requires Covers(keys, vals)
    ensures forall p :: p in Survey(keys, vals, now).live ==>
              exists i :: 0 <= i < |keys| && vals[keys[i]] == Record(p) && IsLive(p, now)
    ensures !Survey(keys, vals, now).aborted ==>
              forall i :: 0 <= i < |keys| && vals[keys[i]].Record? && IsLive(vals[keys[i]].peer, now) ==>
                vals[keys[i]].peer in Survey(keys, vals, now).live
    decreases |keys|
  {
    if keys != [] {
      var n := |keys| - 1;
      var init := keys[..n];
      SurveyLive(init, vals, now);
      var prior := Survey(init, vals, now);
      var s := Survey(keys, vals, now);
      assert forall i :: 0 <= i < n ==> init[i] == keys[i];
      assert forall q :: q in prior.live ==> q in s.live;
      forall p | p in s.live
        ensures exists i :: 0 <= i < |keys| && vals[keys[i]] == Record(p) && IsLive(p, now)
      {
        if p in prior.live {
          var i :| 0 <= i < |init| && vals[init[i]] == Record(p) && IsLive(p, now);
          assert keys[i] == init[i];
        } else {
          assert vals[keys[n]] == Record(p) && IsLive(p, now);
        }
      }
    }
  }

  /** The keys deleted are stale records of the snapshot, and, unless the loop
      aborted, every stale record of it. */
  lemma {:induction false} SurveyStale(keys: seq<string>, vals: map<string, Stored>, now: int)
    requires Covers(keys, vals)
    ensures forall k :: k in Survey(keys, vals, now).stale ==> k in keys && StaleKey(vals, k, now)
    ensures !Survey(keys, vals, now).aborted ==>
              forall k :: k in keys && StaleKey(vals, k, now) ==> k in Survey(keys, vals, now).stale
    decreases |keys|
  {
    if keys != [] {
      var n := |keys| - 1;
      var init := keys[..n];
      SurveyStale(init, vals, now);
      assert keys == init + [keys[n]];
    }
  }

  /** An entry without a readable last_seen stops the loop where it stands: the
      stale records enumerated before it are deleted, none after it. */
  lemma {:induction false} SurveyStopsAtUnstamped(keys: seq<string>, vals: map<string, Stored>, now: int, j: nat)
    requires Covers(keys, vals) && j < |keys|
    requires vals[keys[j]] == Unstamped
    requires forall i :: 0 <= i < j ==> vals[keys[i]] != Unstamped
    ensures Survey(keys, vals, now).aborted
    ensures !Survey(keys[..j], vals, now).aborted
    ensures Survey(keys, vals, now).stale == Survey(keys[..j], vals, now).stale
  {
    var head := keys[..j];
    assert forall i :: 0 <= i < |head| ==> head[i] == keys[i];
    SurveyAbortsIffUnstamped(head, vals, now);
    assert keys[..j + 1][..j] == head;
    SurveyAbortSticks(keys, vals, now, j + 1);
  }

  /** The listing of a concatenated enumeration is the listing of the first
      part followed by that of the second: records keep enumeration order. */
  lemma {:induction false} SurveyConcat(a: seq<string>, b: seq<string>, vals: map<string, Stored>, now: int)
    requires Covers(a, vals) && Covers(b, vals)
    ensures Covers(a + b, vals)
    ensures var sa, sb := Survey(a, vals, now), Survey(b, vals, now);
            Survey(a + b, vals, now) ==
              if sa.aborted then sa else Sweep(sa.live + sb.live, sa.stale + sb.stale, sb.aborted)
    decreases |b|
  {
    assert forall i :: 0 <= i < |a + b| ==> (a + b)[i] == if i < |a| then a[i] else b[i - |a|];
    if b == [] {
      assert a + b == a;
      assert Survey(a, vals, now).live + [] == Survey(a, vals, now).live;
      assert Survey(a, vals, now).stale + {} == Survey(a, vals, now).stale;
    } else {
      var n := |b| - 1;
      var b' := b[..n];
      SurveyConcat(a, b', vals, now);
      assert (a + b)[..|a + b| - 1] == a + b';
      assert (a + b)[|a + b| - 1] == b[n];
      var sa := Survey(a, vals, now);
      var sb' := Survey(b', vals, now);
      if !sa.aborted && !sb'.aborted {
        match vals[b[n]]
        case Undecodable =>
        case Unstamped =>
        case Record(p) =>
          assert sa.live + sb'.live + [p] == sa.live + (sb'.live + [p]);
          assert sa.stale + sb'.stale + {b[n]} == sa.stale + (sb'.stale + {b[n]});
      }
    }
  }

  predicate UniqueNames(peers: seq<PeerRecord>)
  {
    forall i, j :: 0 <= i < j < |peers| ==> peers[i].username != peers[j].username
  }

  /** When every record is stored under its own username and the enumeration
      visits each key once, no username appears twice in the listing. */
  lemma {:induction false} SurveyUniqueNames(keys: seq<string>, vals: map<string, Stored>, now: int)
    requires Covers(keys, vals) && Distinct(keys) && Consistent(vals)
    ensures UniqueNames(Survey(keys, vals, now).live)
    decreases |keys|
  {
    if keys != [] {
      var n := |keys| - 1;
      var init := keys[..n];
      SurveyUniqueNames(init, vals, now);
      SurveyLive(init, vals, now);
      var prior := Survey(init, vals, now);
      var s := Survey(keys, vals, now);
      if !prior.aborted && vals[keys[n]].Record? && IsLive(vals[keys[n]].peer, now) {
        var p := vals[keys[n]].peer;
        assert s.live == prior.live + [p];
        assert p.username == keys[n];
        forall q | q in prior.live
          ensures q.username != p.username
        {
          var i :| 0 <= i < |init| && vals[init[i]] == Record(q) && IsLive(q, now);
          assert init[i] == keys[i];
        }
        var live := prior.live + [p];
        forall i, j | 0 <= i < j < |live|
          ensures live[i].username != live[j].username
        {
          if j == |live| - 1 {
            assert live[i] in prior.live;
          } else {
            assert live[i] == prior.live[i] && live[j] == prior.live[j];
          }
        }
      } else {
        assert s.live == prior.live;
      }
    }
  }

  lemma EnumeratesCovers(order: seq<string>, entries: map<string, Stored>)
    requires Enumerates(order, entries)
    ensures Covers(order, entries)
  {
  }

  /** One more entry of the enumeration, as the loop of get_peers sees it. */
  lemma SurveyStep(keys: seq<string>, vals: map<string, Stored>, now: int, i: nat)
    requires Covers(keys, vals) && i < |keys|
    ensures var prior, next := Survey(keys[..i], vals, now), Survey(keys[..i + 1], vals, now);
            next == if prior.aborted then prior
                    else match vals[keys[i]]
                      case Undecodable => prior
                      case Unstamped => prior.(aborted := true)
                      case Record(p) =>
                        if IsLive(p, now) then prior.(live := prior.live + [p])
                        else prior.(stale := prior.stale + {keys[i]})
  {
    assert keys[..i + 1][..i] == keys[..i];
  }

  /** What the hash holds once the stale keys a sweep found are deleted. */
  lemma SurveyLeaves(order: seq<string>, all: map<string, Stored>, now: int)
    requires Enumerates(order, all)
    ensures Covers(order, all)
    ensures var s := Survey(order, all, now);
            && (!s.aborted ==> forall k :: k in all ==> (k in all - s.stale <==> !StaleKey(all, k, now)))
            && (Consistent(all) ==> Consistent(all - s.stale))
  {
    EnumeratesCovers(order, all);
    SurveyStale(order, all, now);
  }

  /** The loop of get_peers over the HGETALL snapshot, taken in the order
      order: collect the live records, delete the stale keys, and stop at the
      first entry without a readable last_seen. */
  method SweepPeers(store: PeerHash, order: seq<string>, now: int) returns (active: seq<PeerRecord>, aborted: bool)
    requires Covers(order, store.entries)
    modifies store
    ensures var s := Survey(order, old(store.entries), now);
            active == s.live && aborted == s.aborted && store.entries == old(store.entries) - s.stale
  {
    var all := store.entries;
    active := [];
    var i := 0;
    while i < |order|
      invariant 0 <= i <= |order|
      invariant !Survey(order[..i], all, now).aborted
      invariant active == Survey(order[..i], all, now).live
      invariant store.entries == all - Survey(order[..i], all, now).stale
    {
      var key := order[i];
      SurveyStep(order, all, now, i);
      var entry := all[key];
      if entry.Unstamped? {
        SurveyAbortSticks(order, all, now, i + 1);
        return active, true;
      }
      if entry.Record? {
        if now - entry.peer.lastSeen < LivenessWindow {
          active := active + [entry.peer];
        } else {
          var _ := store.Delete(key);
        }
      }
      i := i + 1;
    }
    assert order[..|order|] == order;
    return active, false;
  }

  /** GET /peers: list the live records in enumeration order and delete the
      stale ones on the way. */
  method GetPeers(store: PeerHash, order: seq<string>, reachable: bool, now: int) returns (r: Outcome<PeerList>)
    requires Enumerates(order, store.entries)
    modifies store
    ensures !reachable ==> r == Failure(StoreUnavailable) && store.entries == old(store.entries)
    ensures reachable ==>
      Covers(order, old(store.entries)) &&
      var sweep := Survey(order, old(store.entries), now);
      && store.entries == old(store.entries) - sweep.stale
      && r == if sweep.aborted then Failure(InternalError) else Success(PeerList(|sweep.live|, sweep.live))
    ensures r.Success? ==> r.value.count == |r.value.peers|
    ensures reachable && r.Success? ==>
      forall k :: k in old(store.entries) ==> (k in store.entries <==> !StaleKey(old(store.entries), k, now))
    ensures forall k :: k in store.entries ==> k in old(store.entries) && store.entries[k] == old(store.entries)[k]
    ensures Consistent(old(store.entries)) ==> Consistent(store.entries)
  {
    if !reachable {
      return Failure(StoreUnavailable);
    }
    SurveyLeaves(order, store.entries, now);
    var active, aborted := SweepPeers(store, order, now);
    if aborted {
      return Failure(InternalError);
    }
    return Success(PeerList(|active|, active));
  }

  /** GET /peerinfo?username=: the stored document as it is, with no liveness
      check and no change to the hash. */
  method GetPeerInfo(store: PeerHash, username: Option<string>, reachable: bool) returns (r: Outcome<Stored>)
    ensures username.None? || username.value == "" ==> r == Failure(BadRequest)
    ensures username.Some? && username.value != "" ==>
      var u := username.value;
      r == if !reachable then Failure(StoreUnavailable)
           else if u !in store.entries then Failure(NotFound)
           else if store.entries[u].Undecodable? then Failure(InternalError)
           else Success(store.entries[u])
    ensures r.Success? ==> r.value.Record? || r.value.Unstamped?
  {
    if username.None? || username.value == "" {
      return Failure(BadRequest);
    }
    var u := username.value;
    if !reachable {
      return Failure(StoreUnavailable);
    }
    if u !in store.entries {
      return Failure(NotFound);
    }
    var doc := store.entries[u];
    if doc.Undecodable? {
      return Failure(InternalError);
    }
    return Success(doc);
  }

  /** POST /unregister. */
  method UnregisterPeer(store: PeerHash, body: Option<Json>, reachable: bool) returns (r: Outcome<()>)
    modifies store
    ensures body.None? || !Truthy(body.value) ==> r == Failure(BadRequest) && store.entries == old(store.entries)
    ensures body.Some? && Truthy(body.value) && body.value.Scalar? ==>
      r == Failure(InternalError) && store.entries == old(store.entries)
    ensures body.Some? && Truthy(body.value) && !body.value.Scalar? && !Contains(body.value, "username") ==>
      r == Failure(BadRequest) && store.entries == old(store.entries)
    ensures body.Some? && Truthy(body.value) && !body.value.Scalar? && Contains(body.value, "username")
            && !body.value.Object? ==>
      r == Failure(InternalError) && store.entries == old(store.entries)
    ensures body.Some? && body.value.Object? && "username" in body.value.fields && !reachable ==>
      r == Failure(StoreUnavailable) && store.entries == old(store.entries)
    ensures body.Some? && body.value.Object? && "username" in body.value.fields && reachable ==>
      var u := body.value.fields["username"];
      && r == (if u in old(store.entries) then Success(()) else Failure(NotFound))
      && store.entries == old(store.entries) - {u}
    ensures Consistent(old(store.entries)) ==> Consistent(store.entries)
  {
    if body.None? || !Truthy(body.value) {
      return Failure(BadRequest);
    }
    if body.value.Scalar? {
      // 'username' not in data raises TypeError
      return Failure(InternalError);
    }
    if !Contains(body.value, "username") {
      return Failure(BadRequest);
    }
    if !body.value.Object? {
      // data['username'] on a string or a list raises TypeError
      return Failure(InternalError);
    }
    var u := body.value.fields["username"];
    if !reachable {
      return Failure(StoreUnavailable);
    }
    var deleted := store.Delete(u);
    if deleted > 0 {
      return Success(());
    }
    return Failure(NotFound);
  }
}
